=== FILE: README.md ===
# Vault altar: a Dafny model

This project models the vault altar tile entity of the Vault mod
(`VaultAltarTileEntity`). The altar holds a vault rock (the catalyst) and
an owner. The owner's infusion recipe lives in a per-player store
(`PlayerVaultAltarData`), and the recipe is a list of required items, each
with an item id, `amountRequired` and `currentAmount`.

Every tick on the server, the altar does the following:
- it captures loose item entities that the recipe still wants;
- it counts down the infusion timer while `infusing` is set;
- when the timer reaches 0 it completes the infusion: it resets its state and drops a crystal;
- it re-reads the recipe from the store;
- when the recipe is gone and no infusion runs, it gives the vault rock back.

A one-slot item handler lets hoppers and pipes feed items into the recipe.
`save` and `load` persist the rock flag, the owner and the recipe.

Modules:
- `AltarRecipe` (recipe.dfy) holds item stacks, required items and the fill accounting that capture and the handler share. `Insert` is the handler's `insertItem` on a recipe value, with its conservation and first-fill lemmas.
- `Capture` (capture.dfy) holds the capture pass of `pullNearbyItems`. `Step` is one requirement meeting one entity, `FillUpTo` is the inner loop and `Pull` is the outer loop. Its lemmas cover conservation of items, growth of amounts within their targets, and what the pass leaves untouched.
- `Timer` (timer.dfy) holds the Java-int countdown as a pure clock. It proves that a timer started for `s` seconds completes on exactly the `20*s`-th tick while `infusing` holds.
- `Nbt` (nbt.dfy) holds the three compound keys that `save`/`load` use, with the round-trip lemmas.
- `Altar` (altar.dfy) holds the classes `AltarData` (the store: recipes per owner and a dirty flag) and `VaultAltar` (the tile entity). Their methods change the fields step by step, as the Java does. The methods that carry the loops (`PullNearbyItems`, `FillFromEntity`, `InsertItem`) and `Tick` are proved against the specification functions above; the others state their results outright.

The world is passed in and handed back:
- whether the world is the authoritative server world (`world != null && !world.isClientSide`);
- the game time;
- the item entities returned by the area query, each with its stack and a flag for whether it is within capture distance;
- results: the entities as the tick leaves them, the items spawned (`Crystal`, `VaultRock`), and whether a sync to clients was requested.

Conventions the model fixes:
- **Empty stacks.** A stack whose count is 0 or less is empty. It reports a count of 0 and matches no requirement, as `ItemStack` does once emptied. After a capture removes an entity (its count is set to the non-positive excess), it cannot fill a later requirement in the same inner loop.
- **Aliasing.** On the server, once a tick has run line 119, `this.recipe` and the store's entry are the same Java object. After `load` (line 207) the field is a new object. After `setRecipe` it is whatever object the caller passes, which may or may not be the store's entry. Either way it stays so until the next refresh at line 119, and that refresh never runs while the altar has no rock (line 99). The model keeps one recipe per owner in the store:
  - the tick's capture works on the store entry;
  - line 119 copies that entry into the field;
  - `insertItem` updates the field and writes the fill through to the store when the field equals the owner's store entry (value equality stands for object identity).
- **Int timer.** `infusionTimer` is a Java `int`. `seconds * 20` and the decrement wrap around (`Timer.Wrap32`).
- **Behaviours of the code worth knowing.** The model keeps these as the code has them:
  - the capture loop does not stop after a capture, so a split entity can fill a later requirement for the same item (`Capture.SplitEntityFillsLaterRequirement`);
  - completion fires whenever the timer reads 0 after the decrement step, even with `infusing` false;
  - a tick without the vault rock (or off the server) returns before the periodic sync, so it requests no sync at all.

## Model

| member | source | states |
|---|---|---|
| `AltarRecipe.Absorb` | src/main/java/iskallia/vault/block/entity/VaultAltarTileEntity.java:159-169 | offering `c` items to a requirement: what it gains plus the positive excess equals `c`; a positive excess fills it to its target; on a valid unsatisfied requirement it stays valid and strictly grows |
| `AltarRecipe.FirstWanting` | src/main/java/iskallia/vault/block/entity/VaultAltarTileEntity.java:263-267 | the index of the first unsatisfied requirement for the stack's item, with no earlier one wanting it, or none when no requirement wants it |
| `AltarRecipe.Insert` | src/main/java/iskallia/vault/block/entity/VaultAltarTileEntity.java:260-287 | insertItem on a recipe keeps the number of requirements |
| `AltarRecipe.InsertConserves` | src/main/java/iskallia/vault/block/entity/VaultAltarTileEntity.java:268-282 | count handed back plus the amount added equals the count offered |
| `AltarRecipe.InsertFillsFirstOnly` | src/main/java/iskallia/vault/block/entity/VaultAltarTileEntity.java:263-286 | only the first wanting requirement changes; amounts grow and stay at or below their targets; the stack comes back unchanged, and the recipe stays unchanged, exactly when no requirement wants it |
| `AltarRecipe.InsertReturnsOverflow` | src/main/java/iskallia/vault/block/entity/VaultAltarTileEntity.java:269-282 | with a positive excess the same item comes back with count = excess and the requirement is satisfied; otherwise an empty stack comes back and the amount grew by the whole count |
| `AltarRecipe.UnmatchedStackReturned` | src/main/java/iskallia/vault/block/entity/VaultAltarTileEntity.java:263-286 | a stack no requirement is for comes back as it is and nothing changes |
| `Capture.Step` | src/main/java/iskallia/vault/block/entity/VaultAltarTileEntity.java:156-172 | a capture happens exactly when the requirement is unsatisfied, matches and the entity is in range; only that requirement changes; excess > 0 fills it and leaves the entity holding exactly the excess; otherwise the amount grows by the entity's count and the entity is removed holding nothing; no capture changes nothing; the requirement keeps its item and its target |
| `Capture.FillUpTo` | src/main/java/iskallia/vault/block/entity/VaultAltarTileEntity.java:154-174 | the inner loop over the requirements keeps their number |
| `Capture.Pull` | src/main/java/iskallia/vault/block/entity/VaultAltarTileEntity.java:150-175 | the outer loop over the entities keeps the number of requirements and of entities |
| `Capture.StepConserves` | src/main/java/iskallia/vault/block/entity/VaultAltarTileEntity.java:159-169 | one capture conserves entity count plus accumulated amount |
| `Capture.FillConserves` | src/main/java/iskallia/vault/block/entity/VaultAltarTileEntity.java:154-174 | the inner loop conserves entity count plus accumulated amounts |
| `Capture.PullConserves` | src/main/java/iskallia/vault/block/entity/VaultAltarTileEntity.java:150-175 | the whole pass conserves the items held by all entities plus the recipe's accumulated amounts |
| `Capture.StepGrows` | src/main/java/iskallia/vault/block/entity/VaultAltarTileEntity.java:156-169 | one capture keeps every current amount within its target, never lowers one, and leaves satisfied requirements alone |
| `Capture.FillGrows` | src/main/java/iskallia/vault/block/entity/VaultAltarTileEntity.java:154-174 | the same for the inner loop |
| `Capture.PullGrows` | src/main/java/iskallia/vault/block/entity/VaultAltarTileEntity.java:150-175 | the same for the whole pass |
| `Capture.FillKeepsEntity` | src/main/java/iskallia/vault/block/entity/VaultAltarTileEntity.java:158-168 | an entity keeps its item and its range flag; an empty entity captures nothing and changes nothing |
| `Capture.FillShrinksEntity` | src/main/java/iskallia/vault/block/entity/VaultAltarTileEntity.java:159-167 | on a valid recipe an entity never gains items |
| `Capture.OutOfRangeUntouched` | src/main/java/iskallia/vault/block/entity/VaultAltarTileEntity.java:161-172 | an entity out of range changes neither itself nor any requirement |
| `Capture.FillLeavesUnmatched` | src/main/java/iskallia/vault/block/entity/VaultAltarTileEntity.java:156-161 | a requirement the entity does not match, or an entity out of range, leaves that requirement unchanged |
| `Capture.PullLeavesUntouched` | src/main/java/iskallia/vault/block/entity/VaultAltarTileEntity.java:150-175 | a requirement matched by no in-range entity is unchanged after the pass, and every out-of-range entity comes out as it went in |
| `Capture.PullNothingWanted` | src/main/java/iskallia/vault/block/entity/VaultAltarTileEntity.java:145 | with no requirements the pass changes nothing |
| `Capture.SplitEntityFillsLaterRequirement` | src/main/java/iskallia/vault/block/entity/VaultAltarTileEntity.java:154-174 | an entity of 4 split by a requirement needing 2 goes on to fill a second requirement needing 3 for the same item in the same pass |
| `Timer.Wrap32` | src/main/java/iskallia/vault/block/entity/VaultAltarTileEntity.java:43 | Java int wrap-around: the result is an int, equal to the input when that is an int, and congruent to it modulo 2^32 |
| `Timer.StartValue` | src/main/java/iskallia/vault/block/entity/VaultAltarTileEntity.java:140-142 | the started timer is an int, exactly `seconds * 20` when that product fits (negative seconds included), and otherwise that product wrapped modulo 2^32 |
| `Timer.Advance` | src/main/java/iskallia/vault/block/entity/VaultAltarTileEntity.java:111-116 | completion fires exactly when the timer reads 0 after the decrement, and then resets timer and flag to inactive; otherwise the timer drops by one with `infusing` and stays put without it |
| `Timer.CountingDown` | src/main/java/iskallia/vault/block/entity/VaultAltarTileEntity.java:111 | with `infusing` held, a positive timer `t` reads `t - k` after `k < t` ticks with no completion |
| `Timer.CompletesOnExactTick` | src/main/java/iskallia/vault/block/entity/VaultAltarTileEntity.java:111-116 | after `startInfusionTimer(s)` with `infusing` held: no completion in the first `20*s - 1` ticks, exactly one on the `20*s`-th, which leaves the clock inactive |
| `Timer.PausedIsFrozen` | src/main/java/iskallia/vault/block/entity/VaultAltarTileEntity.java:111-113 | with `infusing` false a non-zero timer never changes and never completes |
| `Timer.ZeroCompletesWithoutInfusing` | src/main/java/iskallia/vault/block/entity/VaultAltarTileEntity.java:113 | a timer started with 0 seconds completes on the next tick even without `infusing` |
| `Nbt.LoadAfterSave` | src/main/java/iskallia/vault/block/entity/VaultAltarTileEntity.java:196-207 | loading a save restores the rock flag, and restores owner and recipe when they were set; otherwise the loading altar keeps its own |
| `Nbt.LoadOwnSave` | src/main/java/iskallia/vault/block/entity/VaultAltarTileEntity.java:196-207 | an altar loading its own save is restored exactly |
| `Nbt.LoadDefaults` | src/main/java/iskallia/vault/block/entity/VaultAltarTileEntity.java:205-207 | absent keys load the rock flag as false and keep owner and recipe |
| `Altar.PullFromStore` | src/main/java/iskallia/vault/block/entity/VaultAltarTileEntity.java:144-152 | the pass runs only on the owner's store entry: other owners and the store's keys are unchanged; no owner, no recipe, or a recipe with no requirements means no change to the store or the entities |
| `Altar.PullFromStoreAccounts` | src/main/java/iskallia/vault/block/entity/VaultAltarTileEntity.java:144-176 | the pass keeps every recipe of the store valid, only grows the owner's amounts, and conserves entity items plus the owner's accumulated amount |
| `Altar.VaultAltar.constructor` | src/main/java/iskallia/vault/block/entity/VaultAltarTileEntity.java:39-51 | a new altar has no owner, no recipe, no rock, timer -1 and is not infusing |
| `Altar.VaultAltar.SetContainsVaultRock` | src/main/java/iskallia/vault/block/entity/VaultAltarTileEntity.java:53-55 | sets the rock flag, nothing else |
| `Altar.VaultAltar.SetOwner` | src/main/java/iskallia/vault/block/entity/VaultAltarTileEntity.java:65-67 | sets the owner, nothing else |
| `Altar.VaultAltar.SetRecipe` | src/main/java/iskallia/vault/block/entity/VaultAltarTileEntity.java:73-75 | sets the recipe field, nothing else |
| `Altar.VaultAltar.SetInfusing` | src/main/java/iskallia/vault/block/entity/VaultAltarTileEntity.java:85-87 | sets the infusing flag, nothing else |
| `Altar.VaultAltar.StartInfusionTimer` | src/main/java/iskallia/vault/block/entity/VaultAltarTileEntity.java:140-142 | the timer becomes `StartValue(seconds)` (exactly `seconds*20` when it fits); nothing else changes |
| `Altar.VaultAltar.CompleteInfusion` | src/main/java/iskallia/vault/block/entity/VaultAltarTileEntity.java:130-138 | rock flag false, recipe null, timer -1, infusing false, owner kept, one crystal spawned |
| `Altar.VaultAltar.PullNearbyItems` | src/main/java/iskallia/vault/block/entity/VaultAltarTileEntity.java:144-176 | the store and the entities become what `PullFromStore` gives; the store is marked dirty exactly when something was captured |
| `Altar.VaultAltar.FillFromEntity` | src/main/java/iskallia/vault/block/entity/VaultAltarTileEntity.java:154-174 | the inner loop for one entity ends in the state `FillUpTo` gives over all requirements; each capture is written to the owner's store entry and marks the store dirty |
| `Altar.VaultAltar.Tick` | src/main/java/iskallia/vault/block/entity/VaultAltarTileEntity.java:96-128 | off the server or without the rock nothing changes, nothing is spawned or synced; otherwise capture as `PullFromStore`, the clock advances as `Timer.Advance`, the recipe is re-read from the store, the rock flag stays only without completion and with a recipe or an infusion running, exactly one crystal on completion or one vault rock on abandonment is spawned, and a sync is requested on capture, completion or every 20th game tick; the store's invariant 0 <= current <= required is kept |
| `Altar.VaultAltar.IsItemValid` | src/main/java/iskallia/vault/block/entity/VaultAltarTileEntity.java:245-256 | true exactly when the recipe is non-null and some requirement is for the stack's item, satisfied or not |
| `Altar.VaultAltar.CommitFill` | src/main/java/iskallia/vault/block/entity/VaultAltarTileEntity.java:271-279 | the filled recipe replaces the field, is written to the store when the field is the owner's entry, and the store is marked dirty |
| `Altar.VaultAltar.InsertItem` | src/main/java/iskallia/vault/block/entity/VaultAltarTileEntity.java:258-287 | returns what `Insert` hands back; with `simulate`, or when nothing wants the stack, nothing changes; otherwise the recipe becomes the filled one, written through to the store, which is marked dirty; with no recipe the stack comes back as it is; the store's invariant 0 <= current <= required is kept |
| `Altar.VaultAltar.Save` | src/main/java/iskallia/vault/block/entity/VaultAltarTileEntity.java:195-201 | the compound gets the rock flag, and owner and recipe when non-null, as `Nbt.Write` |
| `Altar.VaultAltar.Load` | src/main/java/iskallia/vault/block/entity/VaultAltarTileEntity.java:203-209 | rock flag, owner and recipe become `Nbt.Read` of the compound; timer and infusing are untouched |

## Left out

- Moving entities toward the altar (`moveItemTowardPedestal`, `VectorHelper`, lines 178-185) is floating-point vector maths and has no modelled effect.
- The area query (`getAABB`, `getEntitiesOfClass`, the `ITEM_RANGE_CHECK` and `PULL_SPEED` settings) is replaced by the input entity sequence.
- The capture distance (`isItemInRange`, `BlockPos.distSqr`) is replaced by a per-entity flag.
- Sync plumbing (`sendUpdates`, `getUpdateTag`, `handleUpdateTag`, `getUpdatePacket`, `onDataPacket`) becomes a boolean "sync requested" result. `getUpdateTag` followed by `handleUpdateTag` is a save into an empty compound followed by a load, which `Nbt.LoadAfterSave` covers.
- The handler's `onContentsChanged`, the slot argument of `insertItem`/`isItemValid`, `getCapability` and the `LazyOptional` wiring are not modelled. `insertItem` never stores into the slot.
- `ItemVaultCrystal.getRandomCrystal()` is random: a crystal is spawned, but which one is not modelled. The spawn position one block above the altar is not modelled either.
- The recipe codec (`AltarInfusionRecipe.serialize`/`deserialize`) is not part of this model. A recipe is stored in the compound as itself, i.e. the codec is taken to round-trip.
- Tags of the wrong type under the three keys are not modelled, and neither is what `super.save`/`super.load` write.
- The null check on the required-item list (line 152) cannot fire: a recipe is a sequence, never null.
- The getters (lines 57-83) are plain field reads.
- `insertItem` marks the store dirty through a cast to `ServerWorld`, which would fail on a client. The model assumes the handler is only used on the server.
- Item counts and amounts are unbounded integers. With 0 ≤ current ≤ required and a non-negative stack count, the Java arithmetic at lines 159, 166 and 269 stays within int range.
- Concurrent access to the store from several altars is not modelled: one altar ticks at a time.
- `RequiredItem` is not part of this model. It is taken to work as follows:
  - `getRemainder(c)` is `c - (amountRequired - currentAmount)`;
  - `reachedAmountRequired` is `currentAmount == amountRequired`;
  - `addAmount(c)` adds `c`;
  - `isItemEqual` compares item ids of a non-empty stack.
- `PlayerVaultAltarData` is not part of this model. It is a map from owner to recipe with a dirty flag, and a null owner has no recipe.
- Altar.VaultAltar.InsertItem: only when the field is a distinct object whose values equal the store's recipe (after `load`, or after `setRecipe` with an object other than the store's entry, before a tick refreshes it), Java's `insertItem` fills only the copy and leaves the store's amounts unchanged, whereas the model writes the fill through to the store; object identity is not modelled, and value equality stands for it.
- Altar.VaultAltar.CommitFill: writes through to the store under the same value-equality convention as `InsertItem`, so it shares the gap described on the previous line.

=== FILE: altar.dfy ===
/**
 * The altar tile entity (VaultAltarTileEntity.java) and the per-player
 * recipe store it reads (PlayerVaultAltarData). The world is reduced to what
 * the altar observes of it: whether this is the authoritative server world,
 * the game time, and the item entities the area query returns. What the
 * altar does to the world comes back as results: the entities as left, the
 * items spawned, and whether a sync to observers was requested.
 */
module Altar {
  import opened Wrappers
  import opened AltarRecipe
  import opened Capture
  import Timer
  import Nbt

  type Uuid = Nbt.Uuid

  /** Items the altar drops into the world, one block above itself. */
  datatype Spawn =
    | Crystal    // ItemVaultCrystal.getRandomCrystal(): which crystal is not modelled
    | VaultRock  // the catalyst handed back on abandonment

  /** PlayerVaultAltarData.getRecipe: no owner, or an owner without a recipe, gives null. */
  function Lookup(store: map<Uuid, Recipe>, owner: Option<Uuid>): Option<Recipe>
  {
    if owner.Some? && owner.value in store then Some(store[owner.value]) else None
  }

  /** Every recipe of the store keeps current <= required. */
  predicate ValidStore(store: map<Uuid, Recipe>)
  {
    forall u :: u in store ==> ValidRecipe(store[u])
  }

  /** Accumulated amount of the owner's recipe, 0 when there is none. */
  function OwnerTotal(store: map<Uuid, Recipe>, owner: Option<Uuid>): int
  {
    match Lookup(store, owner)
    case None => 0
    case Some(rs) => Total(rs)
  }

  /** The outcome of pullNearbyItems: the store, the entities as left, the captures. */
  datatype StorePull = StorePull(store: map<Uuid, Recipe>, entities: seq<ItemEntity>, captures: nat)

  /** pullNearbyItems (lines 144-176): the pass runs on the owner's recipe in
   *  the store; with no recipe, or one with no requirements, nothing happens. */
  function PullFromStore(store: map<Uuid, Recipe>, owner: Option<Uuid>, es: seq<ItemEntity>): (r: StorePull)
    ensures r.store.Keys == store.Keys && |r.entities| == |es|
    ensures forall u :: u in store && Some(u) != owner ==> r.store[u] == store[u]
    ensures Lookup(store, owner).None? || |Lookup(store, owner).value| == 0 ==> r == StorePull(store, es, 0)
  {
    match Lookup(store, owner)
    case None => StorePull(store, es, 0)
    case Some(rs) =>
      if |rs| == 0 then StorePull(store, es, 0)
      else
        var p := Pull(rs, es);
        StorePull(store[owner.value := p.reqs], p.entities, p.captures)
  }

  /** The pass keeps the store valid, only grows the owner's amounts, and
   *  conserves items between the entities and the owner's recipe. */
  lemma PullFromStoreAccounts(store: map<Uuid, Recipe>, owner: Option<Uuid>, es: seq<ItemEntity>)
    requires ValidStore(store)
    ensures ValidStore(PullFromStore(store, owner, es).store)
    ensures Lookup(store, owner).Some? ==>
              Grows(Lookup(store, owner).value, Lookup(PullFromStore(store, owner, es).store, owner).value)
    ensures SizeSum(PullFromStore(store, owner, es).entities) + OwnerTotal(PullFromStore(store, owner, es).store, owner)
            == SizeSum(es) + OwnerTotal(store, owner)
  {
    match Lookup(store, owner)
    case None =>
    case Some(rs) =>
      PullGrows(rs, es);
      PullConserves(rs, es);
  }

  /** The recipe store shared by all altars of a world, keyed by player. */
  class AltarData {
    var recipes: map<Uuid, Recipe>
    var dirty: bool

    constructor (recipes: map<Uuid, Recipe>)
      ensures this.recipes == recipes && !dirty
    {
      this.recipes := recipes;
      dirty := false;
    }
  }

  /** The altar's recipe field is a view of the store's entry for its owner. */
  predicate IsViewOf(store: map<Uuid, Recipe>, owner: Option<Uuid>, recipe: Option<Recipe>)
  {
    recipe.Some? && Lookup(store, owner) == recipe
  }

  class VaultAltar {
    var owner: Option<Uuid>
    var recipe: Option<Recipe>
    var containsVaultRock: bool
    var infusionTimer: int
    var infusing: bool

    /** The timer is a Java int. */
    ghost predicate Valid()
      reads this
    {
      Timer.IsInt32(infusionTimer)
    }

    /** A freshly placed altar (lines 39-51). */
    constructor ()
      ensures Valid()
      ensures owner.None? && recipe.None? && !containsVaultRock
      ensures infusionTimer == Timer.Inactive && !infusing
    {
      owner := None;
      recipe := None;
      containsVaultRock := false;
      infusionTimer := Timer.Inactive;
      infusing := false;
    }

    method SetContainsVaultRock(b: bool)
      modifies this
      ensures containsVaultRock == b
      ensures owner == old(owner) && recipe == old(recipe)
      ensures infusionTimer == old(infusionTimer) && infusing == old(infusing)
    {
      containsVaultRock := b;
    }

    method SetOwner(u: Option<Uuid>)
      modifies this
      ensures owner == u
      ensures recipe == old(recipe) && containsVaultRock == old(containsVaultRock)
      ensures infusionTimer == old(infusionTimer) && infusing == old(infusing)
    {
      owner := u;
    }

    method SetRecipe(r: Option<Recipe>)
      modifies this
      ensures recipe == r
      ensures owner == old(owner) && containsVaultRock == old(containsVaultRock)
      ensures infusionTimer == old(infusionTimer) && infusing == old(infusing)
    {
      recipe := r;
    }

    method SetInfusing(b: bool)
      modifies this
      ensures infusing == b
      ensures owner == old(owner) && recipe == old(recipe)
      ensures containsVaultRock == old(containsVaultRock) && infusionTimer == old(infusionTimer)
    {
      infusing := b;
    }

    /** startInfusionTimer (lines 140-142): the timer reads 20 ticks per second
     *  of `seconds`; `infusing` is left as it is. */
    method StartInfusionTimer(seconds: int)
      requires Valid() && Timer.IsInt32(seconds)
      modifies this
      ensures Valid()
      ensures infusionTimer == Timer.StartValue(seconds)
      ensures owner == old(owner) && recipe == old(recipe)
      ensures containsVaultRock == old(containsVaultRock) && infusing == old(infusing)
    {
      infusionTimer := Timer.Wrap32(seconds * Timer.TicksPerSecond);
    }

    /** completeInfusion (lines 130-138): everything back to inactive, and one
     *  crystal is spawned. */
    method CompleteInfusion() returns (spawned: Spawn)
      requires Valid()
      modifies this
      ensures Valid()
      ensures !containsVaultRock && recipe.None?
      ensures infusionTimer == Timer.Inactive && !infusing
      ensures owner == old(owner)
      ensures spawned == Crystal
    {
      containsVaultRock := false;
      recipe := None;
      infusionTimer := Timer.Inactive;
      infusing := false;
      spawned := Crystal;
    }

    /**
     * pullNearbyItems (lines 144-176), its accounting: every entity of the
     * query meets every requirement of the owner's recipe in the store, in
     * order. Moving the entity toward the altar has no modelled effect.
     */
    method PullNearbyItems(data: AltarData, entities: seq<ItemEntity>)
      returns (after: seq<ItemEntity>, captures: nat)
      modifies data
      ensures StorePull(data.recipes, after, captures) == PullFromStore(old(data.recipes), owner, entities)
      ensures data.dirty == (old(data.dirty) || captures > 0)
    {
      after, captures := entities, 0;
      var found := Lookup(data.recipes, owner);
      if found.None? || |found.value| == 0 {
        return;
      }
      var u := owner.value;
      var reqs := found.value;
      after := [];
      var i := 0;
      while i < |entities|
        invariant 0 <= i <= |entities|
        invariant Pull(found.value, entities[..i]) == PullResult(reqs, after, captures)
        invariant data.recipes == old(data.recipes)[u := reqs]
        invariant data.dirty == (old(data.dirty) || captures > 0)
      {
        assert entities[..i + 1][..i] == entities[..i];
        var e, fills;
        reqs, e, fills := FillFromEntity(data, u, reqs, entities[i]);
        after := after + [e];
        captures := captures + fills;
        i := i + 1;
      }
      assert entities[..i] == entities;
    }

    /** The inner loop of pullNearbyItems (lines 154-174): one entity meets
     *  every requirement of the owner's recipe in order; each capture is
     *  written to the store, which is marked dirty. */
    method FillFromEntity(data: AltarData, u: Uuid, reqs0: Recipe, e0: ItemEntity)
      returns (reqs: Recipe, e: ItemEntity, fills: nat)
      requires u in data.recipes && data.recipes[u] == reqs0
      modifies data
      ensures Fill(reqs, e, fills) == FillUpTo(reqs0, e0, |reqs0|)
      ensures data.recipes == old(data.recipes)[u := reqs]
      ensures data.dirty == (old(data.dirty) || fills > 0)
    {
      reqs, e, fills := reqs0, e0, 0;
      assert data.recipes == data.recipes[u := reqs];
      var j := 0;
      while j < |reqs|
        invariant |reqs| == |reqs0| && 0 <= j <= |reqs|
        invariant FillUpTo(reqs0, e0, j) == Fill(reqs, e, fills)
        invariant data.recipes == old(data.recipes)[u := reqs]
        invariant data.dirty == (old(data.dirty) || fills > 0)
      {
        var required := reqs[j];
        if required.currentAmount == required.amountRequired {
          j := j + 1;
          continue;
        }
        if SameItem(required, e.stack) {
          var excess := Size(e.stack) - (required.amountRequired - required.currentAmount);
          if e.inRange {
            if excess > 0 {
              reqs := reqs[j := required.(currentAmount := required.amountRequired)];
              e := e.(stack := e.stack.(count := excess));
            } else {
              reqs := reqs[j := required.(currentAmount := required.currentAmount + Size(e.stack))];
              e := e.(stack := e.stack.(count := excess), removed := true);
            }
            data.recipes := data.recipes[u := reqs];
            data.dirty := true;
            fills := fills + 1;
          }
        }
        j := j + 1;
      }
    }

    /**
     * tick (lines 96-128). Nothing happens off the server or without the
     * vault rock. Otherwise, in order: capture, decrement, completion,
     * refresh of the recipe from the store, abandonment, periodic sync.
     */
    method Tick(data: AltarData, authoritative: bool, gameTime: int, entities: seq<ItemEntity>)
      returns (after: seq<ItemEntity>, spawned: seq<Spawn>, synced: bool)
      requires Valid()
      modifies this, data
      ensures Valid()
      ensures ValidStore(old(data.recipes)) ==> ValidStore(data.recipes)
      ensures !authoritative || !old(containsVaultRock) ==>
                unchanged(this) && unchanged(data) && after == entities && spawned == [] && !synced
      ensures authoritative && old(containsVaultRock) ==>
                var pulled := PullFromStore(old(data.recipes), old(owner), entities);
                var clock := Timer.Advance(Timer.Clock(old(infusionTimer), old(infusing)));
                data.recipes == pulled.store && after == pulled.entities &&
                data.dirty == (old(data.dirty) || pulled.captures > 0) &&
                owner == old(owner) &&
                Timer.Clock(infusionTimer, infusing) == clock.clock &&
                recipe == Lookup(data.recipes, owner) &&
                containsVaultRock == (!clock.completed && (recipe.Some? || infusing)) &&
                spawned == (if clock.completed then [Crystal] else []) +
                           (if !clock.completed && recipe.None? && !infusing then [VaultRock] else []) &&
                synced == (pulled.captures > 0 || clock.completed || gameTime % 20 == 0)
    {
      if !authoritative || !containsVaultRock {
        return entities, [], false;
      }
      if ValidStore(data.recipes) {
        PullFromStoreAccounts(data.recipes, owner, entities);
      }
      var captures;
      after, captures := PullNearbyItems(data, entities);
      synced := captures > 0;
      spawned := [];

      if infusing {
        infusionTimer := Timer.Wrap32(infusionTimer - 1);
      }
      if infusionTimer == 0 {
        var crystal := CompleteInfusion();
        spawned := [crystal];
        synced := true;
      }

      recipe := Lookup(data.recipes, owner);

      if containsVaultRock && recipe.None? && !infusing {
        containsVaultRock := false;
        spawned := spawned + [VaultRock];
      }

      if gameTime % 20 == 0 {
        synced := true;
      }
    }

    /** isItemValid of the one-slot handler (lines 245-256): some requirement
     *  is for this item, satisfied or not. */
    method IsItemValid(stack: Stack) returns (valid: bool)
      ensures valid <==> recipe.Some? && exists k :: 0 <= k < |recipe.value| && SameItem(recipe.value[k], stack)
    {
      if recipe.None? || |recipe.value| == 0 {
        return false;
      }
      var items := recipe.value;
      var k := 0;
      while k < |items|
        invariant 0 <= k <= |items|
        invariant forall m :: 0 <= m < k ==> !SameItem(items[m], stack)
      {
        if SameItem(items[k], stack) {
          return true;
        }
        k := k + 1;
      }
      return false;
    }

    /** Replaces the recipe after a fill by insertItem, writing through to
     *  the store when the field is the store's entry for the owner. */
    method CommitFill(data: AltarData, filled: Recipe)
      requires recipe.Some?
      modifies this, data
      ensures recipe == Some(filled) && data.dirty
      ensures data.recipes == if IsViewOf(old(data.recipes), old(owner), old(recipe))
                              then old(data.recipes)[old(owner).value := filled] else old(data.recipes)
      ensures owner == old(owner) && containsVaultRock == old(containsVaultRock)
      ensures infusionTimer == old(infusionTimer) && infusing == old(infusing)
    {
      if IsViewOf(data.recipes, owner, recipe) {
        data.recipes := data.recipes[owner.value := filled];
      }
      recipe := Some(filled);
      data.dirty := true;
    }

    /**
     * insertItem of the one-slot handler (lines 258-287): fills the first
     * requirement that wants the stack and hands back the overflow, or the
     * empty stack; a stack no requirement wants comes back as it is. With
     * `simulate` the answer is the same and nothing changes.
     */
    method InsertItem(data: AltarData, stack: Stack, simulate: bool) returns (r: Stack)
      modifies this, data
      ensures owner == old(owner) && containsVaultRock == old(containsVaultRock)
      ensures infusionTimer == old(infusionTimer) && infusing == old(infusing)
      ensures ValidStore(old(data.recipes)) ==> ValidStore(data.recipes)
      ensures old(recipe).None? ==> r == stack && recipe == old(recipe) && unchanged(data)
      ensures old(recipe).Some? ==>
                var ins := Insert(old(recipe).value, stack);
                var fills := FirstWanting(old(recipe).value, stack).Some?;
                r == ins.returned &&
                (simulate || !fills ==> recipe == old(recipe) && unchanged(data)) &&
                (!simulate && fills ==>
                   recipe == Some(ins.reqs) && data.dirty &&
                   data.recipes == if IsViewOf(old(data.recipes), owner, old(recipe))
                                   then old(data.recipes)[owner.value := ins.reqs] else old(data.recipes))
    {
      r := stack;
      if recipe.None? || |recipe.value| == 0 {
        return;
      }
      var items := recipe.value;
      var j := 0;
      while j < |items|
        invariant 0 <= j <= |items|
        invariant forall k :: 0 <= k < j ==> !Wants(items[k], stack)
        invariant recipe == old(recipe) && unchanged(data)
      {
        var item := items[j];
        if item.currentAmount == item.amountRequired {
          j := j + 1;
          continue;
        }
        if SameItem(item, stack) {
          if ValidStore(data.recipes) && IsViewOf(data.recipes, owner, recipe) {
            InsertFillsFirstOnly(items, stack);
          }
          var amount := Size(stack);
          var excess := amount - (item.amountRequired - item.currentAmount);
          if excess > 0 {
            if !simulate {
              CommitFill(data, items[j := item.(currentAmount := item.amountRequired)]);
            }
            return stack.(count := excess);
          } else {
            if !simulate {
              CommitFill(data, items[j := item.(currentAmount := item.currentAmount + Size(stack))]);
            }
            return EmptyStack;
          }
        }
        j := j + 1;
      }
    }

    /** save (lines 195-201). */
    method Save(compound: Nbt.Compound) returns (saved: Nbt.Compound)
      ensures saved == Nbt.Write(compound, Nbt.Persisted(containsVaultRock, owner, recipe))
    {
      saved := compound.(containsVaultRock := Some(containsVaultRock));
      if owner.Some? {
        saved := saved.(owner := owner);
      }
      if recipe.Some? {
        saved := saved.(recipe := recipe);
      }
    }

    /** load (lines 203-209): the timer and the infusing flag are not persisted. */
    method Load(compound: Nbt.Compound)
      modifies this
      ensures Nbt.Persisted(containsVaultRock, owner, recipe)
              == Nbt.Read(compound, old(Nbt.Persisted(containsVaultRock, owner, recipe)))
      ensures infusionTimer == old(infusionTimer) && infusing == old(infusing)
    {
      containsVaultRock := compound.containsVaultRock == Some(true);
      if compound.owner.Some? {
        owner := compound.owner;
      }
      if compound.recipe.Some? {
        recipe := compound.recipe;
      }
    }
  }
}

=== FILE: capture.dfy ===
/**
 * The capture accounting of pullNearbyItems (VaultAltarTileEntity.java,
 * lines 145-176): every entity of the query meets every requirement in
 * order; an in-range entity that an unsatisfied requirement wants pours its
 * items into it, splitting when it holds more than needed and being removed
 * otherwise. The inner loop does not stop after a capture.
 */
module Capture {
  import opened AltarRecipe

  /** An ItemEntity as the pass sees it: its stack, whether it is within the
   *  capture distance of the altar, and whether it has been removed. */
  datatype ItemEntity = ItemEntity(stack: Stack, inRange: bool, removed: bool)

  /** State of the pass over one entity: the recipe, the entity, captures so far. */
  datatype Fill = Fill(reqs: Recipe, entity: ItemEntity, captures: nat)

  /** Requirement j meets entity e (lines 156-172). */
  function Step(rs: Recipe, j: nat, e: ItemEntity): (f: Fill)
    requires j < |rs|
    ensures f.captures <= 1
    ensures f.captures == 1 <==> Wants(rs[j], e.stack) && e.inRange
    ensures f.captures == 0 ==> f == Fill(rs, e, 0)
    ensures |f.reqs| == |rs| && f.reqs == rs[j := f.reqs[j]]
    ensures f.reqs[j].item == rs[j].item && f.reqs[j].amountRequired == rs[j].amountRequired
    ensures f.entity.stack.item == e.stack.item && f.entity.inRange == e.inRange
    ensures f.captures == 1 && Remainder(rs[j], e.stack.count) > 0 ==>
              Reached(f.reqs[j]) && Size(f.entity.stack) == Remainder(rs[j], e.stack.count)
              && f.entity.removed == e.removed
    ensures f.captures == 1 && Remainder(rs[j], e.stack.count) <= 0 ==>
              f.reqs[j].currentAmount == rs[j].currentAmount + Size(e.stack)
              && Size(f.entity.stack) == 0 && f.entity.removed
  {
    if Wants(rs[j], e.stack) && e.inRange then
      var excess := Remainder(rs[j], e.stack.count);
      Fill(rs[j := Absorb(rs[j], e.stack.count)],
           e.(stack := e.stack.(count := excess), removed := e.removed || excess <= 0),
           1)
    else
      Fill(rs, e, 0)
  }

  /** The inner loop over requirements 0 .. j-1 for one entity. */
  function FillUpTo(rs: Recipe, e: ItemEntity, j: nat): (f: Fill)
    requires j <= |rs|
    ensures |f.reqs| == |rs|
  {
    if j == 0 then Fill(rs, e, 0)
    else
      var f := FillUpTo(rs, e, j - 1);
      var s := Step(f.reqs, j - 1, f.entity);
      Fill(s.reqs, s.entity, f.captures + s.captures)
  }

  /** The result of the pass: the recipe, the entities as left, the number of captures. */
  datatype PullResult = PullResult(reqs: Recipe, entities: seq<ItemEntity>, captures: nat)

  /** The outer loop over the entities of the query, in the order given. */
  function Pull(rs: Recipe, es: seq<ItemEntity>): (p: PullResult)
    ensures |p.reqs| == |rs| && |p.entities| == |es|
  {
    if es == [] then PullResult(rs, [], 0)
    else
      var p := Pull(rs, es[..|es| - 1]);
      var f := FillUpTo(p.reqs, es[|es| - 1], |p.reqs|);
      PullResult(f.reqs, p.entities + [f.entity], p.captures + f.captures)
  }

  /** Items held by a sequence of entities. */
  function SizeSum(es: seq<ItemEntity>): int
  {
    if es == [] then 0 else SizeSum(es[..|es| - 1]) + Size(es[|es| - 1].stack)
  }

  // ---------------------------------------------------------------------
  // Conservation: entity items plus accumulated amounts never change.

  lemma StepConserves(rs: Recipe, j: nat, e: ItemEntity)
    requires j < |rs|
    ensures Size(Step(rs, j, e).entity.stack) + Total(Step(rs, j, e).reqs) == Size(e.stack) + Total(rs)
  {
    if Wants(rs[j], e.stack) && e.inRange {
      TotalUpdate(rs, j, Absorb(rs[j], e.stack.count));
    }
  }

  lemma {:induction false} FillConserves(rs: Recipe, e: ItemEntity, j: nat)
    requires j <= |rs|
    ensures Size(FillUpTo(rs, e, j).entity.stack) + Total(FillUpTo(rs, e, j).reqs) == Size(e.stack) + Total(rs)
  {
    if j > 0 {
      FillConserves(rs, e, j - 1);
      var f := FillUpTo(rs, e, j - 1);
      StepConserves(f.reqs, j - 1, f.entity);
    }
  }

  lemma {:induction false} PullConserves(rs: Recipe, es: seq<ItemEntity>)
    ensures SizeSum(Pull(rs, es).entities) + Total(Pull(rs, es).reqs) == SizeSum(es) + Total(rs)
  {
    if es != [] {
      var p := Pull(rs, es[..|es| - 1]);
      PullConserves(rs, es[..|es| - 1]);
      FillConserves(p.reqs, es[|es| - 1], |p.reqs|);
      var after := Pull(rs, es).entities;
      assert after[..|after| - 1] == p.entities;
    }
  }

  // ---------------------------------------------------------------------
  // Monotonicity: amounts only grow, stay within their targets, and
  // satisfied requirements are left alone.

  lemma StepGrows(rs: Recipe, j: nat, e: ItemEntity)
    requires j < |rs| && ValidRecipe(rs)
    ensures ValidRecipe(Step(rs, j, e).reqs) && Grows(rs, Step(rs, j, e).reqs)
  {
  }

  lemma {:induction false} FillGrows(rs: Recipe, e: ItemEntity, j: nat)
    requires j <= |rs| && ValidRecipe(rs)
    ensures ValidRecipe(FillUpTo(rs, e, j).reqs) && Grows(rs, FillUpTo(rs, e, j).reqs)
  {
    if j > 0 {
      FillGrows(rs, e, j - 1);
      var f := FillUpTo(rs, e, j - 1);
      StepGrows(f.reqs, j - 1, f.entity);
    }
  }

  lemma {:induction false} PullGrows(rs: Recipe, es: seq<ItemEntity>)
    requires ValidRecipe(rs)
    ensures ValidRecipe(Pull(rs, es).reqs) && Grows(rs, Pull(rs, es).reqs)
  {
    if es != [] {
      var p := Pull(rs, es[..|es| - 1]);
      PullGrows(rs, es[..|es| - 1]);
      FillGrows(p.reqs, es[|es| - 1], |p.reqs|);
    }
  }

  // ---------------------------------------------------------------------
  // What the pass leaves alone.

  /** An entity keeps its item and its range flag and never gains items; an
   *  empty one stays empty and changes nothing. */
  lemma {:induction false} FillKeepsEntity(rs: Recipe, e: ItemEntity, j: nat)
    requires j <= |rs|
    ensures FillUpTo(rs, e, j).entity.stack.item == e.stack.item
    ensures FillUpTo(rs, e, j).entity.inRange == e.inRange
    ensures IsEmpty(e.stack) ==> FillUpTo(rs, e, j) == Fill(rs, e, 0)
  {
    if j > 0 {
      FillKeepsEntity(rs, e, j - 1);
    }
  }

  /** On a valid recipe an entity never gains items. */
  lemma {:induction false} FillShrinksEntity(rs: Recipe, e: ItemEntity, j: nat)
    requires j <= |rs| && ValidRecipe(rs)
    ensures Size(FillUpTo(rs, e, j).entity.stack) <= Size(e.stack)
  {
    if j > 0 {
      FillShrinksEntity(rs, e, j - 1);
      FillGrows(rs, e, j - 1);
    }
  }

  /** An entity out of range is neither captured nor changed, and changes nothing. */
  lemma {:induction false} OutOfRangeUntouched(rs: Recipe, e: ItemEntity, j: nat)
    requires j <= |rs| && !e.inRange
    ensures FillUpTo(rs, e, j) == Fill(rs, e, 0)
  {
    if j > 0 {
      OutOfRangeUntouched(rs, e, j - 1);
    }
  }

  /** A requirement that the entity does not match, in range, is not touched by it. */
  lemma {:induction false} FillLeavesUnmatched(rs: Recipe, e: ItemEntity, j: nat, k: nat)
    requires j <= |rs| && k < |rs|
    requires !(e.inRange && SameItem(rs[k], e.stack))
    ensures FillUpTo(rs, e, j).reqs[k] == rs[k]
  {
    if j > 0 {
      FillLeavesUnmatched(rs, e, j - 1, k);
      FillKeepsEntity(rs, e, j - 1);
    }
  }

  /** Over the whole pass: a requirement no in-range entity matches keeps its
   *  amount, and every out-of-range entity comes out as it went in. */
  lemma {:induction false} PullLeavesUntouched(rs: Recipe, es: seq<ItemEntity>)
    ensures forall k :: (0 <= k < |rs| &&
              forall i :: 0 <= i < |es| ==> !(es[i].inRange && SameItem(rs[k], es[i].stack))) ==>
              Pull(rs, es).reqs[k] == rs[k]
    ensures forall i :: 0 <= i < |es| && !es[i].inRange ==> Pull(rs, es).entities[i] == es[i]
  {
    if es != [] {
      var init := es[..|es| - 1];
      var last := es[|es| - 1];
      var p := Pull(rs, init);
      PullLeavesUntouched(rs, init);
      forall k | 0 <= k < |rs| &&
          (forall i :: 0 <= i < |es| ==> !(es[i].inRange && SameItem(rs[k], es[i].stack)))
        ensures Pull(rs, es).reqs[k] == rs[k]
      {
        assert forall i :: 0 <= i < |init| ==> init[i] == es[i];
        FillLeavesUnmatched(p.reqs, last, |p.reqs|, k);
      }
      if !last.inRange {
        OutOfRangeUntouched(p.reqs, last, |p.reqs|);
      }
    }
  }

  /** With no requirements the pass is a no-op. */
  lemma {:induction false} PullNothingWanted(es: seq<ItemEntity>)
    ensures Pull([], es) == PullResult([], es, 0)
  {
    if es != [] {
      PullNothingWanted(es[..|es| - 1]);
      assert es[..|es| - 1] + [es[|es| - 1]] == es;
    }
  }

  /** The inner loop does not break: an entity split by one requirement goes on
   *  to fill a later requirement for the same item in the same pass. */
  lemma SplitEntityFillsLaterRequirement()
    ensures var rs := [RequiredItem(7, 2, 0), RequiredItem(7, 3, 0)];
            var e := ItemEntity(Stack(7, 4), true, false);
            FillUpTo(rs, e, 2) ==
              Fill([RequiredItem(7, 2, 2), RequiredItem(7, 3, 2)], ItemEntity(Stack(7, -1), true, true), 2)
  {
    var rs := [RequiredItem(7, 2, 0), RequiredItem(7, 3, 0)];
    var e := ItemEntity(Stack(7, 4), true, false);
    // the first requirement takes 2 of the 4 items and the entity survives with 2
    var r0 := RequiredItem(7, 2, 2);
    var e1 := ItemEntity(Stack(7, 2), true, false);
    assert Remainder(rs[0], 4) == 2;
    assert Absorb(rs[0], 4) == r0;
    assert rs[0 := r0] == [r0, rs[1]];
    var f1 := FillUpTo(rs, e, 1);
    assert f1 == Fill([r0, rs[1]], e1, 1);
    // the second requirement takes the other 2 and the entity is removed
    var r1 := RequiredItem(7, 3, 2);
    assert Remainder(rs[1], 2) == -1;
    assert Absorb(rs[1], 2) == r1;
    assert [r0, rs[1]][1 := r1] == [r0, r1];
    assert Step([r0, rs[1]], 1, e1) == Fill([r0, r1], ItemEntity(Stack(7, -1), true, true), 1);
  }
}

=== FILE: nbt.dfy ===
/**
 * The part of the altar's CompoundNBT that save and load touch
 * (VaultAltarTileEntity.java, lines 195-209): the keys "containsVaultRock",
 * "Owner" and "Recipe", each present or absent. The recipe codec is taken
 * to round-trip, so a recipe is stored as itself.
 */
module Nbt {
  import opened Wrappers
  import opened AltarRecipe

  /** A player UUID. */
  type Uuid = nat

  /** The three keys of the compound, absent as None. */
  datatype Compound = Compound(containsVaultRock: Option<bool>, owner: Option<Uuid>, recipe: Option<Recipe>)

  /** A compound the three keys have not been written to yet. */
  const EmptyCompound := Compound(None, None, None)

  /** The fields of the altar that are persisted. */
  datatype Persisted = Persisted(containsVaultRock: bool, owner: Option<Uuid>, recipe: Option<Recipe>)

  /** save: the flag is always written; "Owner" and "Recipe" only when non-null,
   *  so a value already in the compound under those keys survives otherwise. */
  function Write(c: Compound, p: Persisted): Compound
  {
    Compound(Some(p.containsVaultRock),
             if p.owner.Some? then p.owner else c.owner,
             if p.recipe.Some? then p.recipe else c.recipe)
  }

  /** load into an altar whose fields were `prev`: getBoolean defaults to false;
   *  the owner and the recipe are replaced only when their key is present. */
  function Read(c: Compound, prev: Persisted): Persisted
  {
    Persisted(c.containsVaultRock == Some(true),
              if c.owner.Some? then c.owner else prev.owner,
              if c.recipe.Some? then c.recipe else prev.recipe)
  }

  /** Loading a save: the flag always comes back; owner and recipe come back
   *  when they were set, and otherwise the loading altar keeps its own. */
  lemma LoadAfterSave(p: Persisted, prev: Persisted)
    ensures var q := Read(Write(EmptyCompound, p), prev);
            q.containsVaultRock == p.containsVaultRock &&
            q.owner == (if p.owner.Some? then p.owner else prev.owner) &&
            q.recipe == (if p.recipe.Some? then p.recipe else prev.recipe)
  {
  }

  /** An altar that loads its own save is restored exactly. */
  lemma LoadOwnSave(p: Persisted)
    ensures Read(Write(EmptyCompound, p), p) == p
  {
  }

  /** Absent keys: the flag reads false, owner and recipe are kept. */
  lemma LoadDefaults(prev: Persisted)
    ensures Read(EmptyCompound, prev) == Persisted(false, prev.owner, prev.recipe)
  {
  }
}

=== FILE: recipe.dfy ===
/**
 * Item stacks, the required items of an altar recipe, and the fill
 * accounting shared by entity capture and the altar's one-slot item handler
 * (VaultAltarTileEntity.java, lines 154-172 and 260-287).
 */
module AltarRecipe {
  import opened Wrappers

  /** Item identity, as compared by RequiredItem.isItemEqual. */
  type ItemId = nat

  /** The item an empty stack reports. */
  const Air: ItemId := 0

  /**
   * An ItemStack: an item and its raw count. A count of zero or less makes
   * the stack empty: it then reports a count of 0 and the item Air.
   */
  datatype Stack = Stack(item: ItemId, count: int)

  /** ItemStack.EMPTY */
  const EmptyStack := Stack(Air, 0)

  predicate IsEmpty(s: Stack) { s.count <= 0 }

  /** ItemStack.getCount: the number of items the stack holds. */
  function Size(s: Stack): nat { if s.count <= 0 then 0 else s.count }

  /** One entry of an infusion recipe. */
  datatype RequiredItem = RequiredItem(item: ItemId, amountRequired: int, currentAmount: int)

  /** AltarInfusionRecipe.getRequiredItems(), in order. */
  type Recipe = seq<RequiredItem>

  /** The data-model invariant of a requirement: 0 <= current <= required. */
  predicate ValidItem(r: RequiredItem) { 0 <= r.currentAmount <= r.amountRequired }

  predicate ValidRecipe(rs: Recipe) { forall k :: 0 <= k < |rs| ==> ValidItem(rs[k]) }

  /** RequiredItem.reachedAmountRequired */
  predicate Reached(r: RequiredItem) { r.currentAmount == r.amountRequired }

  /** RequiredItem.isItemEqual: an empty stack matches no requirement. */
  predicate SameItem(r: RequiredItem, s: Stack) { !IsEmpty(s) && s.item == r.item }

  /** A requirement that is still unsatisfied and that the stack matches. */
  predicate Wants(r: RequiredItem, s: Stack) { !Reached(r) && SameItem(r, s) }

  /** RequiredItem.getRemainder: what is left of `count` once r is filled. */
  function Remainder(r: RequiredItem, count: int): int
  {
    count - (r.amountRequired - r.currentAmount)
  }

  /**
   * The requirement after `count` items are offered to it: filled to its
   * target when they overflow it (setCurrentAmount), otherwise grown by all
   * of them (addAmount).
   */
  function Absorb(r: RequiredItem, count: int): (r': RequiredItem)
    ensures r'.item == r.item && r'.amountRequired == r.amountRequired
    ensures Remainder(r, count) > 0 ==> Reached(r')
    // what the requirement gained plus what is left over is what was offered
    ensures (r'.currentAmount - r.currentAmount)
              + (if Remainder(r, count) > 0 then Remainder(r, count) else 0) == count
    ensures ValidItem(r) && !Reached(r) && count > 0 ==>
              ValidItem(r') && r.currentAmount < r'.currentAmount
  {
    if Remainder(r, count) > 0 then r.(currentAmount := r.amountRequired)
    else r.(currentAmount := r.currentAmount + count)
  }

  /** Sum of the accumulated amounts of a recipe. */
  function Total(rs: Recipe): int
  {
    if rs == [] then 0 else rs[0].currentAmount + Total(rs[1..])
  }

  lemma {:induction false} TotalUpdate(rs: Recipe, j: nat, r: RequiredItem)
    requires j < |rs|
    ensures Total(rs[j := r]) == Total(rs) - rs[j].currentAmount + r.currentAmount
  {
    if j > 0 {
      assert rs[j := r][1..] == rs[1..][j - 1 := r];
      TotalUpdate(rs[1..], j - 1, r);
    } else {
      assert rs[j := r][1..] == rs[1..];
    }
  }

  /** rs' results from rs by filling: same entries, amounts only grow, satisfied ones untouched. */
  predicate Grows(rs: Recipe, rs': Recipe)
  {
    |rs'| == |rs| &&
    forall k :: 0 <= k < |rs| ==>
      rs'[k].item == rs[k].item && rs'[k].amountRequired == rs[k].amountRequired &&
      rs[k].currentAmount <= rs'[k].currentAmount &&
      (Reached(rs[k]) ==> rs'[k] == rs[k])
  }

  /** Index of the first requirement that wants the stack, the one insertItem fills. */
  function FirstWanting(rs: Recipe, s: Stack): (i: Option<nat>)
    ensures i.Some? ==> i.value < |rs| && Wants(rs[i.value], s)
    ensures i.Some? ==> forall k :: 0 <= k < i.value ==> !Wants(rs[k], s)
    ensures i.None? ==> forall k :: 0 <= k < |rs| ==> !Wants(rs[k], s)
  {
    if rs == [] then None
    else if Wants(rs[0], s) then Some(0)
    else match FirstWanting(rs[1..], s)
      case None => None
      case Some(i) => Some(i + 1)
  }

  /** The outcome of insertItem: the recipe after the fill and the stack handed back. */
  datatype Insertion = Insertion(reqs: Recipe, returned: Stack)

  /**
   * The one-slot handler's insertItem (lines 260-287) on a recipe: only the
   * first requirement that wants the stack is filled; the overflow comes back
   * as a copy of the stack, otherwise the empty stack; a stack nothing wants
   * comes back unchanged.
   */
  function Insert(rs: Recipe, s: Stack): (ins: Insertion)
    ensures |ins.reqs| == |rs|
  {
    match FirstWanting(rs, s)
    case None => Insertion(rs, s)
    case Some(i) =>
      var excess := Remainder(rs[i], s.count);
      Insertion(rs[i := Absorb(rs[i], s.count)],
                if excess > 0 then s.(count := excess) else EmptyStack)
  }

  /** Items are conserved: what comes back plus what the recipe gained is what went in. */
  lemma InsertConserves(rs: Recipe, s: Stack)
    ensures Size(Insert(rs, s).returned) + Total(Insert(rs, s).reqs) == Size(s) + Total(rs)
  {
    match FirstWanting(rs, s)
    case None =>
    case Some(i) => TotalUpdate(rs, i, Absorb(rs[i], s.count));
  }

  /**
   * Only the first wanting requirement changes, amounts never shrink and stay
   * within their targets; the stack comes back unchanged exactly when no
   * requirement wants it, and then the recipe is unchanged too.
   */
  lemma InsertFillsFirstOnly(rs: Recipe, s: Stack)
    requires ValidRecipe(rs)
    ensures ValidRecipe(Insert(rs, s).reqs) && Grows(rs, Insert(rs, s).reqs)
    ensures FirstWanting(rs, s).Some? ==>
              forall k :: 0 <= k < |rs| && k != FirstWanting(rs, s).value ==>
                Insert(rs, s).reqs[k] == rs[k]
    ensures Insert(rs, s).returned == s <==> forall k :: 0 <= k < |rs| ==> !Wants(rs[k], s)
    ensures Insert(rs, s).reqs == rs <==> forall k :: 0 <= k < |rs| ==> !Wants(rs[k], s)
  {
    match FirstWanting(rs, s)
    case None =>
    case Some(i) =>
      var r' := Absorb(rs[i], s.count);
      assert Insert(rs, s).reqs[i] == r' && r' != rs[i];
  }

  /** The handed-back stack is either empty or the same item with the overflow count. */
  lemma InsertReturnsOverflow(rs: Recipe, s: Stack)
    requires FirstWanting(rs, s).Some?
    ensures var i := FirstWanting(rs, s).value;
            var excess := Remainder(rs[i], s.count);
            (excess > 0 ==> Insert(rs, s).returned == Stack(s.item, excess)
                            && Reached(Insert(rs, s).reqs[i])) &&
            (excess <= 0 ==> IsEmpty(Insert(rs, s).returned)
                             && Insert(rs, s).reqs[i].currentAmount == rs[i].currentAmount + s.count)
  {
  }

  /** A stack no requirement is for (isItemValid false) comes back from
   *  insertItem as it is, and the recipe is unchanged. */
  lemma UnmatchedStackReturned(rs: Recipe, s: Stack)
    requires forall k :: 0 <= k < |rs| ==> !SameItem(rs[k], s)
    ensures Insert(rs, s) == Insertion(rs, s)
  {
  }
}

=== FILE: timer.dfy ===
/**
 * The infusion countdown (VaultAltarTileEntity.java, lines 43-44, 111-116,
 * 130-134 and 140-142). The timer is a Java int: -1 means inactive, the
 * `infusing` flag gates the decrement, and completion fires whenever the
 * timer reads 0 after the decrement step, whatever the flag says.
 */
module Timer {

  const TicksPerSecond: int := 20
  const IntMin: int := -0x8000_0000
  const IntMax: int := 0x7FFF_FFFF

  /** The timer value of an altar that is not infusing. */
  const Inactive: int := -1

  predicate IsInt32(x: int) { IntMin <= x <= IntMax }

  /** Java's 32-bit two's-complement wrap-around of an int result. */
  function Wrap32(x: int): (r: int)
    ensures IsInt32(r)
    ensures IsInt32(x) ==> r == x
    ensures (x - r) % 0x1_0000_0000 == 0
  {
    (x - IntMin) % 0x1_0000_0000 + IntMin
  }

  /** startInfusionTimer: `seconds * 20` as Java computes it. */
  function StartValue(seconds: int): (t: int)
    requires IsInt32(seconds)
    ensures IsInt32(t)
    ensures IsInt32(seconds * TicksPerSecond) ==> t == seconds * TicksPerSecond
    ensures (seconds * TicksPerSecond - t) % 0x1_0000_0000 == 0
  {
    Wrap32(seconds * TicksPerSecond)
  }

  /** The two fields the countdown lives in. */
  datatype Clock = Clock(timer: int, infusing: bool)

  /** One tick of the countdown and whether completion fired in it. */
  datatype ClockTick = ClockTick(clock: Clock, completed: bool)

  /** Line 111: the decrement, taken only while `infusing` is set. */
  function Decrement(c: Clock): int
  {
    if c.infusing then Wrap32(c.timer - 1) else c.timer
  }

  /** Lines 111-116 with the resets of completeInfusion (lines 133-134). */
  function Advance(c: Clock): (n: ClockTick)
    ensures n.completed <==> Decrement(c) == 0
    ensures n.completed ==> n.clock == Clock(Inactive, false)
    ensures !n.completed ==> n.clock.infusing == c.infusing
    ensures !n.completed && c.infusing && IntMin < c.timer <= IntMax ==> n.clock.timer == c.timer - 1
    ensures !n.completed && !c.infusing ==> n.clock == c
  {
    var t := Decrement(c);
    if t == 0 then ClockTick(Clock(Inactive, false), true) else ClockTick(Clock(t, c.infusing), false)
  }

  /** The clock after n ticks, with the number of completions among them. */
  datatype Run = Run(clock: Clock, completions: nat)

  function Ticks(c: Clock, n: nat): Run
  {
    if n == 0 then Run(c, 0)
    else
      var r := Ticks(c, n - 1);
      var t := Advance(r.clock);
      Run(t.clock, r.completions + if t.completed then 1 else 0)
  }

  /** With `infusing` held, a positive timer t0 counts down one per tick without completing. */
  lemma {:induction false} CountingDown(t0: int, k: nat)
    requires 0 < t0 <= IntMax && k < t0
    ensures Ticks(Clock(t0, true), k) == Run(Clock(t0 - k, true), 0)
  {
    if k > 0 {
      CountingDown(t0, k - 1);
    }
  }

  /**
   * startInfusionTimer(s) with `infusing` held true: no completion during the
   * first 20*s - 1 ticks, and exactly one, resetting the clock, on the 20*s-th.
   */
  lemma CompletesOnExactTick(seconds: int)
    requires 1 <= seconds <= IntMax / TicksPerSecond
    ensures var t0 := StartValue(seconds);
            t0 == seconds * TicksPerSecond &&
            (forall k: nat :: k < t0 ==> Ticks(Clock(t0, true), k) == Run(Clock(t0 - k, true), 0)) &&
            Ticks(Clock(t0, true), t0) == Run(Clock(Inactive, false), 1)
  {
    var t0 := StartValue(seconds);
    forall k: nat | k < t0 ensures Ticks(Clock(t0, true), k) == Run(Clock(t0 - k, true), 0) {
      CountingDown(t0, k);
    }
    CountingDown(t0, t0 - 1);
  }

  /** With `infusing` false the count is frozen (no completion) unless it already reads 0. */
  lemma {:induction false} PausedIsFrozen(t: int, n: nat)
    requires t != 0
    ensures Ticks(Clock(t, false), n) == Run(Clock(t, false), 0)
  {
    if n > 0 {
      PausedIsFrozen(t, n - 1);
    }
  }

  /** A timer started at 0 completes on the next tick even when not infusing. */
  lemma ZeroCompletesWithoutInfusing()
    ensures StartValue(0) == 0 && Advance(Clock(StartValue(0), false)).completed
  {
  }
}

=== FILE: wrappers.dfy ===
/** Optional values, standing in for Java references that may be null. */
module Wrappers {

  datatype Option<+T> = None | Some(value: T)
}
